=== FILE: README.md ===
# MtGuiController bridge — a Dafny model

MtGuiController lets a MetaTrader program, which has no UI of its own, open a
WinForms form from a .NET assembly, observe what the user does with it, and
push text into its controls. The host talks to one static class,
`GuiController`, through a polling API: `ShowForm`, `HideForm`, `SendEvent`,
`EventsTotal` and `GetEvent`. Behind it sit two process-wide structures: the
global event list every form appends to, and the directory of one controller
per open form, keyed by `assembly_path + "/" + form_name`.

This project models that bridge as a functional state machine:

- `wrappers.dfy` — `Option` and `Result`.
- `gui_events.dfy` (module `GuiEvents`) — the event types and their ordinals,
  the event record, and the append-only log with `EventsTotal`, `GetEvent` and
  `SendExceptionEvent`.
- `controls.dfy` (module `Controls`) — one form's controller: the exact-type
  table of registered control kinds and their handlers, the registry build
  (`SubscribeOnElements`), `DisposeForm`, and the translators that turn a
  scroll, a click, a lost focus or a key press into at most one event.
- `directory.dfy` (module `ControllerDirectory`) — the controller directory
  as an insertion-ordered sequence of entries with distinct keys, with
  dictionary lookup, add, remove and in-place replacement.
- `bridge.dfy` (module `Bridge`) — the state `{log, directory}`, the host's
  calls, the user's interactions and the windowing system closing a form, as
  pure transitions, plus `Run` over a sequence of calls.

Reflection is replaced by a resolver parameter that returns a form's
top-level controls or `None`. A control is a record `{name, kind, text,
children}`, where `kind` is its exact runtime type and `children` are the
controls nested inside it.

Note that the code:
- builds the registry from the form's top-level controls only; controls
  nested inside a panel or group box are never registered;
- stops `SendEvent` at the first disposed controller, after removing it, so
  the controllers after it are not visited;
- skips a controller that lacks the named control silently, without logging
  anything;
- removes the entry in `HideForm` right after clearing the registry, so
  whether the disposed flag is then set cannot be observed; nothing is
  logged.

## Model

| member | source | states |
|---|---|---|
| GuiEvents.EventsTotal | MtGuiController/IController.cs:195-198 | the event total is the number of events logged so far |
| GuiEvents.Code | MtGuiController/IController.cs:186 | the ordinal the host reads for an event type is one of 0 to 3 |
| GuiEvents.TypeOfCode | MtGuiController/IController.cs:14-20 | an integer names an event type exactly when it is one of the four ordinals, and then it is that type's ordinal |
| GuiEvents.CodeFollowsDeclarationOrder | MtGuiController/IController.cs:14-20 | the ordinals rise in declaration order, so with their range Exception is 0, ClickOnElement 1, TextChange 2 and ScrollChange 3 |
| GuiEvents.CodeRoundTrip | MtGuiController/IController.cs:14-20 | casting an event type's ordinal back gives the same type |
| GuiEvents.Append | MtGuiController/IController.cs:44 | adding to the event list keeps every existing event at its index and puts the new one at the end |
| GuiEvents.GetEvent | MtGuiController/IController.cs:182-190 | reading event n (only for 0 <= n < EventsTotal) returns that event's name, ordinal type, lparam, dparam and sparam |
| GuiEvents.AppendedEventIsLast | MtGuiController/IController.cs:182-198 | after an append the total grows by one and the last readable index returns the appended event |
| GuiEvents.GetEventStable | MtGuiController/IController.cs:182-190 | an index already readable keeps returning the same fields after later appends |
| GuiEvents.SendExceptionEvent | MtGuiController/IController.cs:83-91 | a failure appends exactly one Exception event whose sparam is the message, leaving earlier events as they were |
| Controls.HandlersOf | MtGuiController/Controller.cs:147-151 | only the four types are in the table; the scroll handler is attached to VScrollBar only, the click handler to Button only, lost focus and key down to TextBox only |
| Controls.SupportedKinds | MtGuiController/Controller.cs:147-154 | a control is registered exactly when its type is VScrollBar, Button, Label or TextBox |
| Controls.LabelHasNoHandlers | MtGuiController/Controller.cs:150 | Label is in the table but has no handler |
| Controls.SubscribeOnElements | MtGuiController/Controller.cs:145-160 | the build succeeds iff registered-type top-level controls have distinct names; then the keys are exactly those names, each maps to its own control under its own name; a failure names a registered control |
| Controls.SubscribeIgnoresNesting | MtGuiController/Controller.cs:152 | success and the registry's keys do not depend on nested controls |
| Controls.DisposeForm | MtGuiController/Controller.cs:172-176 | disposing leaves the registry empty |
| Controls.OnScroll | MtGuiController/Controller.cs:63-78 | one ScrollChange event (name, old value, new value) is appended iff the scroll is a small increment or decrement; otherwise the log is unchanged |
| Controls.OnClick | MtGuiController/Controller.cs:84-93 | one ClickOnElement event carrying only the control's name is appended |
| Controls.OnTextChange | MtGuiController/Controller.cs:99-108 | one TextChange event carrying the control's name and current text is appended |
| Controls.OnLostFocus | MtGuiController/Controller.cs:114-118 | losing focus always produces the text-change event |
| Controls.OnKeyDown | MtGuiController/Controller.cs:124-129 | Enter produces the same event as losing focus; any other key leaves the log unchanged |
| ControllerDirectory.FormKey | MtGuiController/IController.cs:104 | the key is the path, a '/', then the form name |
| ControllerDirectory.FormKeyCollides | MtGuiController/IController.cs:104 | two different (path, form) pairs can share one key |
| ControllerDirectory.Find | MtGuiController/IController.cs:122-124 | a lookup finds a controller iff the key is present, and then the one filed under it |
| ControllerDirectory.Remove | MtGuiController/IController.cs:126 | removal deletes exactly the key, keeps the other entries and keeps keys distinct |
| ControllerDirectory.RemoveKeepsOrder | MtGuiController/IController.cs:126 | removing a present key cuts out exactly its entry; the entries before and after it stay in order |
| ControllerDirectory.ReplaceThenRemove | MtGuiController/IController.cs:124-126 | disposing the controller under a key and then removing that key leaves every other entry as it was, in order |
| ControllerDirectory.FindAfterRemove | MtGuiController/IController.cs:126 | after removal the key finds nothing and every other key finds what it found before |
| ControllerDirectory.RemoveLength | MtGuiController/IController.cs:126 | removing a present key drops one entry; an absent key changes nothing |
| ControllerDirectory.Add | MtGuiController/IController.cs:105 | adding a fresh key appends one entry, keeps the others and keeps keys distinct |
| ControllerDirectory.FindAfterAdd | MtGuiController/IController.cs:105 | after an add the new key finds the new controller and every other key is unaffected |
| ControllerDirectory.Replace | MtGuiController/IController.cs:124-125 | updating the controller under a key keeps every key, order and every other entry |
| ControllerDirectory.FindAfterReplace | MtGuiController/IController.cs:124-125 | after an update the key finds the new controller and every other key is unaffected |
| ControllerDirectory.ReplaceKeepsKeys | MtGuiController/IController.cs:124-125 | an update keeps the key set and the distinct-keys invariant |
| Bridge.Message | MtGuiController/IController.cs:77 | both duplicate failures carry the `Dictionary.Add` message; an unresolved form's message starts "Form with name " followed by the form name |
| Bridge.GetGuiController | MtGuiController/IController.cs:53-59 | an unresolved form fails with FormNotFound; a resolved one fails only with DuplicateControlName, and builds iff its registered names are distinct, into a live controller whose registry is the form's own registered top-level controls, each under its name |
| Bridge.ShowForm | MtGuiController/IController.cs:99-112 | the log is unchanged iff the form resolves, its names are distinct and its key is new; then exactly one entry is added, last, under the key, holding the registry built from the form, and no other lookup changes; otherwise the directory is unchanged and the log is extended exactly as `SendExceptionEvent` does with the failure's message: one Exception event with no element name and zero parameters |
| Bridge.HideForm | MtGuiController/IController.cs:117-132 | nothing is logged; an absent key leaves the state unchanged; otherwise exactly that key's entry is cut out of the directory, the others staying in order, and every other lookup is unchanged |
| Bridge.ShownControlsAreLive | MtGuiController/IController.cs:103-105 | after a successful show every registered-type top-level control of the form is live under the form's key as that very control |
| Bridge.HideFormRemovesOne | MtGuiController/IController.cs:121-126 | hiding a present form removes exactly one entry and the key then finds nothing |
| Bridge.ApplyCommand | MtGuiController/IController.cs:159-165 | the TextChange ordinal sets the named control's text; every other ordinal changes nothing; no other control and no key changes |
| Bridge.Visit | MtGuiController/IController.cs:154-155 | a controller without the named control is skipped unchanged; one with it receives the command |
| Bridge.FirstDisposed | MtGuiController/IController.cs:146-153 | the walk's stopping point: every earlier controller is live and the one there is disposed |
| Bridge.Dispatch | MtGuiController/IController.cs:146-166 | controllers before the first disposed one receive the command, the first disposed one is removed, and those after it are untouched |
| Bridge.SendEvent | MtGuiController/IController.cs:142-172 | sending a command logs nothing and changes the directory only by the walk |
| Bridge.DispatchKeepsValid | MtGuiController/IController.cs:149-153 | for any command arguments, the walk keeps directory keys distinct and registries well named |
| Bridge.DispatchOnlyRemoves | MtGuiController/IController.cs:146-157 | when visiting leaves every controller unchanged, the walk only cuts out the first disposed controller and keeps the rest in order |
| Bridge.OtherCommandsChangeNothing | MtGuiController/IController.cs:159-165 | an ordinal other than TextChange changes no controller; only the first disposed one is removed |
| Bridge.UnknownNameChangesNothing | MtGuiController/IController.cs:154-155 | a name no controller registers changes no controller |
| Bridge.Interact | MtGuiController/Controller.cs:147-157 | a user action adds at most one event, and one exactly when the live form registers the control, its type has the handler, and the handler's filter passes; the log is then what that handler's translator produces for the control; typing changes only that control's text under that key; the directory keeps its length, its keys in place and every other entry |
| Bridge.LabelsAreSilent | MtGuiController/Controller.cs:150 | nothing done to a registered label is logged |
| Bridge.ReportedEventNamesControl | MtGuiController/Controller.cs:157 | in a valid state the logged event carries the name the control is registered under |
| Bridge.CloseWindow | MtGuiController/IController.cs:149 | closing a window marks exactly its own controller disposed, keeps its registry, keeps every other entry in place and the directory's order, and logs nothing |
| Bridge.ShowKeepsValid | MtGuiController/IController.cs:103-105 | opening a form keeps keys distinct and registries well named |
| Bridge.HideKeepsValid | MtGuiController/IController.cs:124-126 | hiding a form keeps keys distinct and registries well named |
| Bridge.InteractKeepsValid | MtGuiController/Controller.cs:157 | user actions keep keys distinct and registries well named |
| Bridge.CloseKeepsValid | MtGuiController/IController.cs:149 | closing a window keeps keys distinct and registries well named |
| Bridge.ReplaceAllWellNamed | MtGuiController/IController.cs:124-125 | updating one controller with a well-named registry keeps all registries well named |
| Bridge.StepGrowsLog | MtGuiController/IController.cs:83-91 | every call keeps the log as a prefix and adds at most one event; an Exception event comes only from ShowForm; HideForm, SendEvent and closing a window log nothing |
| Bridge.StepKeepsValid | MtGuiController/IController.cs:40 | every call keeps the directory's keys distinct and its registries well named |
| Bridge.RunGrowsLog | MtGuiController/IController.cs:44 | over any sequence of calls no logged event changes and the log grows by at most one event per call |
| Bridge.RunKeepsValid | MtGuiController/IController.cs:40 | every state reachable by calls from a valid one is valid |
| Bridge.CommandThenLostFocus | MtGuiController/IController.cs:159-165 | setting a text box's text by command logs nothing, and a lost focus afterwards logs exactly one TextChange event with that name and text |
| Bridge.OpenThenClick | MtGuiController/Controller.cs:84-93 | opening a form with button Btn1 and clicking it leaves one event: a click named Btn1 |

## Left out

- Reflection (`Assembly.LoadFile`, `FindForm`, `CreateInstance`): replaced by a resolver parameter returning the form's top-level controls or None.
- Bridge.ShowForm: a form that cannot be resolved is logged with the message "Form with name … in assembly <path>  not find"; the source prints the assembly's full name instead of its path. The resolver's None also stands for an assembly that fails to load and for a form constructor that throws inside `CreateInstance`; those raise the runtime's own message (the latter a `TargetInvocationException`), which the model does not reproduce. Both duplicate failures use the .NET Framework text of `Dictionary.Add`'s exception; newer .NET runtimes append the key to it.
- Threading and the UI message loop (`RunForm`, `Task.Run`, `Application.Run`, `Control.Invoke`, the asynchronous `m_form.Dispose()`): the text update of `SendEvent` is a direct state change, and starting or disposing the form has no modelled effect.
- Bridge.ApplyCommand: an exception thrown by `Control.Invoke` (a control without a window handle, say) would be caught and logged by `SendEvent`; the model treats the update as always succeeding.
- The `IsDiposed` flag: it is not defined in the modelled code. If it reads the form's own disposed state, the `m_form.Dispose()` call in `DisposeForm` (MtGuiController/Controller.cs:175) sets it, but `HideForm` removes the entry right afterwards, so no walk can see it; the model treats the flag as set only by the windowing system through `CloseWindow`.
- The unreachable `TryGetValue` failure branch of `SendEvent` (after `ContainsKey` succeeded) is not modelled.
- `OnDisposeForm`: its body is commented out and it is never subscribed.
- Dictionary enumeration order: unspecified in C#; the directory is modelled in insertion order.
- `dparam` is a double in the source but only ever receives an integer scroll position; it is an `int` here, and `lparam` is an unbounded `int` (no value stored in it exceeds 32 bits).
- `assembly_name` and `form_name` of an event are never assigned; they are left out, and null strings are empty strings.
- Concurrency: in the source, the forms' UI threads append to `m_global_events` and the host's calls touch it and `m_controllers` without any lock. The model treats each append and each call as atomic and interleaves calls one at a time, which `RunGrowsLog` and `RunKeepsValid` rely on.
- Event count and index width: `EventsTotal` returns a 32-bit count; the model's log length is unbounded.
- The contents of the form a controller that failed to register keeps alive (its constructed form, its attached handlers) are not modelled: such a controller is unreachable.
- Interactions with a disposed form or with an unregistered control log nothing: the former receives no input and the latter has no handler attached.

=== FILE: bridge.dfy ===
/** The static bridge the host calls (MtGuiController/IController.cs): the
    global log and the controller directory as one explicit state, with the
    host's calls and the user's interactions as pure transitions. */
module Bridge {
  import opened Wrappers
  import opened GuiEvents
  import opened Controls
  import opened ControllerDirectory

  /** The two process-wide structures: `m_global_events` and `m_controllers`. */
  datatype State = State(log: Log, directory: Directory)

  /** The process state before any call. */
  const Initial: State := State([], [])

  /** What every reachable state satisfies: directory keys are distinct and
      every registry files each control under its own name. */
  predicate Valid(s: State)
  {
    && KeysUnique(s.directory)
    && forall e :: e in s.directory ==> WellNamed(e.controller.controls)
  }

  /** Loading the assembly and instantiating the form by name. The
      reflection is outside the model: a resolver yields the form's top-level
      controls, or None when the assembly or the form cannot be found. */
  type Resolver = (string, string) -> Option<seq<Widget>>

  /** The three ways `ShowForm` can fail. */
  datatype ShowError =
    | FormNotFound(assemblyPath: string, formName: string)
    | DuplicateControlName(name: string)
    | DuplicateFormKey(key: string)

  /** The message `Dictionary.Add` throws on a key it already holds. */
  const DuplicateKeyMessage: string := "An item with the same key has already been added."

  /** The text of the exception a failure raises. Both duplicate cases come
      from `Dictionary.Add` and so share one message. */
  function Message(e: ShowError): (m: string)
    ensures !e.FormNotFound? ==> m == DuplicateKeyMessage
    ensures e.FormNotFound? ==>
              |m| > 15 + |e.formName| && m[..15] == "Form with name " && m[15..15 + |e.formName|] == e.formName
  {
    match e
    case FormNotFound(path, name) => "Form with name " + name + " in assembly " + path + "  not find"
    case DuplicateControlName(_) => DuplicateKeyMessage
    case DuplicateFormKey(_) => DuplicateKeyMessage
  }

  /** `GetGuiController`: resolve the form and build its controller, whose
      construction subscribes to the form's controls. */
  function GetGuiController(resolve: Resolver, assemblyPath: string, formName: string): (r: Result<Controller, ShowError>)
    ensures resolve(assemblyPath, formName).None? ==> r == Failure(FormNotFound(assemblyPath, formName))
    ensures resolve(assemblyPath, formName).Some? ==>
              (r.Success? <==> UniqueSupportedNames(resolve(assemblyPath, formName).value))
    ensures resolve(assemblyPath, formName).Some? && r.Failure? ==> r.error.DuplicateControlName?
    ensures r.Success? ==> !r.value.disposed && WellNamed(r.value.controls)
    ensures r.Success? ==> r.value.controls == SubscribeOnElements(resolve(assemblyPath, formName).value).value
  {
    match resolve(assemblyPath, formName)
    case None => Failure(FormNotFound(assemblyPath, formName))
    case Some(form) =>
      match SubscribeOnElements(form)
      case Failure(name) => Failure(DuplicateControlName(name))
      case Success(controls) => Success(Controller(controls, false))
  }

  /** When `ShowForm` can register the form: it resolves, its registered
      controls have distinct names, and its key is not yet in the directory. */
  predicate CanShow(s: State, resolve: Resolver, assemblyPath: string, formName: string)
  {
    && resolve(assemblyPath, formName).Some?
    && UniqueSupportedNames(resolve(assemblyPath, formName).value)
    && FormKey(assemblyPath, formName) !in Keys(s.directory)
  }

  /** `ShowForm`: build the controller, then add it under its key. Any
      failure is caught and logged as one exception event, and the directory
      is left as it was. Starting the form's message loop has no effect on
      the model's state. */
  function ShowForm(s: State, resolve: Resolver, assemblyPath: string, formName: string): (r: State)
    ensures CanShow(s, resolve, assemblyPath, formName) <==> r.log == s.log
    ensures !CanShow(s, resolve, assemblyPath, formName) ==>
              && r.directory == s.directory
              && r.log == SendExceptionEvent(s.log,
                            if resolve(assemblyPath, formName).None?
                            then Message(FormNotFound(assemblyPath, formName))
                            else DuplicateKeyMessage)
    ensures CanShow(s, resolve, assemblyPath, formName) ==>
              var key := FormKey(assemblyPath, formName);
              && Keys(r.directory) == Keys(s.directory) + {key}
              && |r.directory| == |s.directory| + 1
              && r.directory[..|s.directory|] == s.directory
              && r.directory[|s.directory|].key == key
              && !r.directory[|s.directory|].controller.disposed
              && r.directory[|s.directory|].controller.controls
                   == SubscribeOnElements(resolve(assemblyPath, formName).value).value
    ensures forall k :: k != FormKey(assemblyPath, formName) ==> Find(r.directory, k) == Find(s.directory, k)
  {
    var key := FormKey(assemblyPath, formName);
    match GetGuiController(resolve, assemblyPath, formName)
    case Failure(e) => State(SendExceptionEvent(s.log, Message(e)), s.directory)
    case Success(c) =>
      if key in Keys(s.directory) then
        State(SendExceptionEvent(s.log, Message(DuplicateFormKey(key))), s.directory)
      else
        assert forall k :: k != key ==> Find(Add(s.directory, key, c), k) == Find(s.directory, k) by {
          forall k | k != key ensures Find(Add(s.directory, key, c), k) == Find(s.directory, k) {
            FindAfterAdd(s.directory, key, c, k);
          }
        }
        State(s.log, Add(s.directory, key, c))
  }

  /** `HideForm`: an absent key is ignored. A present controller is disposed,
      which clears its registry, and then removed from the directory; every
      other entry stays. Nothing is logged. */
  function HideForm(s: State, assemblyPath: string, formName: string): (r: State)
    ensures r.log == s.log
    ensures FormKey(assemblyPath, formName) !in Keys(s.directory) ==> r == s
    ensures Keys(r.directory) == Keys(s.directory) - {FormKey(assemblyPath, formName)}
    ensures KeysUnique(s.directory) ==>
              forall k :: k != FormKey(assemblyPath, formName) ==> Find(r.directory, k) == Find(s.directory, k)
    ensures KeysUnique(s.directory) ==>
              forall i :: 0 <= i < |s.directory| && s.directory[i].key == FormKey(assemblyPath, formName) ==>
                r.directory == s.directory[..i] + s.directory[i + 1..]
  {
    var key := FormKey(assemblyPath, formName);
    if key !in Keys(s.directory) then s
    else
      var c := Find(s.directory, key).value;
      // `DisposeForm` clears the registry in place before the entry is
      // removed; once removed, the cleared controller is no longer reachable.
      var disposed := Replace(s.directory, key, c.(controls := DisposeForm(c.controls)));
      ReplaceKeepsKeys(s.directory, key, c.(controls := DisposeForm(c.controls)));
      assert KeysUnique(s.directory) ==> forall k :: k != key ==> Find(Remove(disposed, key), k) == Find(s.directory, k) by {
        if KeysUnique(s.directory) {
          forall k | k != key ensures Find(Remove(disposed, key), k) == Find(s.directory, k) {
            FindAfterRemove(disposed, key, k);
            FindAfterReplace(s.directory, key, c.(controls := DisposeForm(c.controls)), k);
          }
        }
      }
      assert KeysUnique(s.directory) ==>
               forall i :: 0 <= i < |s.directory| && s.directory[i].key == key ==>
                 Remove(disposed, key) == s.directory[..i] + s.directory[i + 1..] by {
        if KeysUnique(s.directory) {
          forall i | 0 <= i < |s.directory| && s.directory[i].key == key
            ensures Remove(disposed, key) == s.directory[..i] + s.directory[i + 1..]
          {
            ReplaceThenRemove(s.directory, key, c.(controls := DisposeForm(c.controls)), i);
          }
        }
      }
      State(s.log, Remove(disposed, key))
  }

  /** Removing a present key shrinks the directory by exactly one entry. */
  lemma HideFormRemovesOne(s: State, assemblyPath: string, formName: string)
    requires KeysUnique(s.directory)
    requires FormKey(assemblyPath, formName) in Keys(s.directory)
    ensures |HideForm(s, assemblyPath, formName).directory| == |s.directory| - 1
    ensures Find(HideForm(s, assemblyPath, formName).directory, FormKey(assemblyPath, formName)) == None
  {
    var key := FormKey(assemblyPath, formName);
    var c := Find(s.directory, key).value;
    var c' := c.(controls := DisposeForm(c.controls));
    ReplaceKeepsKeys(s.directory, key, c');
    RemoveLength(Replace(s.directory, key, c'), key);
  }

  /** The command `SendEvent` applies to one live controller that registers
      the named control: with the `TextChange` ordinal the control's text is
      set; every other ordinal, named or not, changes nothing. */
  function ApplyCommand(c: Controller, elName: string, id: int, sparam: string): (r: Controller)
    requires elName in c.controls
    ensures r.disposed == c.disposed && r.controls.Keys == c.controls.Keys
    ensures TypeOfCode(id) != Some(TextChange) ==> r == c
    ensures TypeOfCode(id) == Some(TextChange) ==> r.controls[elName] == c.controls[elName].(text := sparam)
    ensures forall n :: n in c.controls && n != elName ==> r.controls[n] == c.controls[n]
  {
    if TypeOfCode(id) == Some(TextChange) then
      c.(controls := c.controls[elName := c.controls[elName].(text := sparam)])
    else c
  }

  /** What one step of the `SendEvent` walk does to a live controller: a
      controller without the named control is skipped. */
  function Visit(c: Controller, elName: string, id: int, sparam: string): (r: Controller)
    ensures elName !in c.controls ==> r == c
    ensures elName in c.controls ==> r == ApplyCommand(c, elName, id, sparam)
  {
    if elName in c.controls then ApplyCommand(c, elName, id, sparam) else c
  }

  /** The position of the first disposed controller in the walk, or the
      directory's length if there is none. */
  function FirstDisposed(d: Directory): (i: nat)
    ensures i <= |d|
    ensures forall j :: 0 <= j < i ==> !d[j].controller.disposed
    ensures i < |d| ==> d[i].controller.disposed
  {
    if |d| == 0 || d[0].controller.disposed then 0 else 1 + FirstDisposed(d[1..])
  }

  /** The `foreach` of `SendEvent` over the directory in order. A disposed
      controller is removed and the walk ends there, so the controllers
      after it are not visited. */
  function Dispatch(d: Directory, elName: string, id: int, sparam: string): (r: Directory)
    ensures |r| == if FirstDisposed(d) < |d| then |d| - 1 else |d|
    ensures forall j :: 0 <= j < FirstDisposed(d) ==>
              r[j] == Entry(d[j].key, Visit(d[j].controller, elName, id, sparam))
    ensures forall j :: FirstDisposed(d) < j < |d| ==> r[j - 1] == d[j]
  {
    if |d| == 0 then []
    else if d[0].controller.disposed then d[1..]
    else
      var rest := Dispatch(d[1..], elName, id, sparam);
      var r := [Entry(d[0].key, Visit(d[0].controller, elName, id, sparam))] + rest;
      assert forall j :: 0 < j < |r| ==> r[j] == rest[j - 1];
      r
  }

  /** `SendEvent`: walk the directory applying the command; nothing is
      logged. `lparam` and `dparam` are accepted and ignored. */
  function SendEvent(s: State, elName: string, id: int, lparam: int, dparam: int, sparam: string): (r: State)
    ensures r.log == s.log
    ensures r.directory == Dispatch(s.directory, elName, id, sparam)
  {
    State(s.log, Dispatch(s.directory, elName, id, sparam))
  }

  /** The walk drops at most the first disposed controller and keeps every
      other key, so the directory's invariants survive it. */
  lemma {:induction false} DispatchKeepsValid(s: State, elName: string, id: int, lparam: int, dparam: int, sparam: string)
    requires Valid(s)
    ensures Valid(SendEvent(s, elName, id, lparam, dparam, sparam))
  {
    var d := s.directory;
    var r := Dispatch(d, elName, id, sparam);
    var f := FirstDisposed(d);
    forall i, j | 0 <= i < j < |r| ensures r[i].key != r[j].key {
      var i' := if i < f then i else i + 1;
      var j' := if j < f then j else j + 1;
      assert r[i].key == d[i'].key && r[j].key == d[j'].key;
    }
    forall e | e in r ensures WellNamed(e.controller.controls) {
      var j :| 0 <= j < |r| && r[j] == e;
      if j < f {
        assert d[j] in d;
      } else {
        assert r[j] == d[j + 1];
        assert d[j + 1] in d;
      }
    }
  }

  /** When visiting leaves every controller as it was, the walk's only
      effect is the removal of the first disposed controller. */
  lemma DispatchOnlyRemoves(d: Directory, elName: string, id: int, sparam: string)
    requires forall j :: 0 <= j < |d| ==> Visit(d[j].controller, elName, id, sparam) == d[j].controller
    ensures var f := FirstDisposed(d);
      Dispatch(d, elName, id, sparam) == if f < |d| then d[..f] + d[f + 1..] else d
  {
    var f := FirstDisposed(d);
    var r := Dispatch(d, elName, id, sparam);
    var expected := if f < |d| then d[..f] + d[f + 1..] else d;
    assert |r| == |expected|;
    forall j | 0 <= j < |r| ensures r[j] == expected[j] {
      if j < f {
        assert r[j] == Entry(d[j].key, Visit(d[j].controller, elName, id, sparam));
      }
    }
  }

  /** With any ordinal other than `TextChange` the walk changes no
      controller: the only possible change is the removal of the first
      disposed one. */
  lemma OtherCommandsChangeNothing(d: Directory, elName: string, id: int, sparam: string)
    requires TypeOfCode(id) != Some(TextChange)
    ensures var f := FirstDisposed(d);
      Dispatch(d, elName, id, sparam) == if f < |d| then d[..f] + d[f + 1..] else d
  {
    forall j | 0 <= j < |d| ensures Visit(d[j].controller, elName, id, sparam) == d[j].controller {
      if elName in d[j].controller.controls {
        assert ApplyCommand(d[j].controller, elName, id, sparam) == d[j].controller;
      }
    }
    DispatchOnlyRemoves(d, elName, id, sparam);
  }

  /** A command for a name that no visited controller registers changes no
      controller either. */
  lemma UnknownNameChangesNothing(d: Directory, elName: string, id: int, sparam: string)
    requires forall j :: 0 <= j < |d| ==> elName !in d[j].controller.controls
    ensures var f := FirstDisposed(d);
      Dispatch(d, elName, id, sparam) == if f < |d| then d[..f] + d[f + 1..] else d
  {
    forall j | 0 <= j < |d| ensures Visit(d[j].controller, elName, id, sparam) == d[j].controller {
      assert elName !in d[j].controller.controls;
    }
    DispatchOnlyRemoves(d, elName, id, sparam);
  }

  /** What the user can do to a control of an open form. `Edit` is typing
      into a text box, which changes its text without any notification the
      controller subscribes to. */
  datatype Interaction =
    | Scroll(scrollType: ScrollEventType, oldValue: int, newValue: int)
    | Click
    | LostFocus
    | KeyDown(keyCode: int)
    | Edit(text: string)

  /** The subscription an interaction would reach, if any. */
  function HandlerFor(i: Interaction): (h: Option<Handler>)
  {
    match i
    case Scroll(_, _, _) => Some(ScrollHandler)
    case Click => Some(ClickHandler)
    case LostFocus => Some(LostFocusHandler)
    case KeyDown(_) => Some(KeyDownHandler)
    case Edit(_) => None
  }

  /** The control `elName` of the live form filed under `key`, if the form
      is open and registers it. */
  function LiveControl(s: State, key: string, elName: string): (w: Option<Widget>)
  {
    match Find(s.directory, key)
    case None => None
    case Some(c) => if c.disposed || elName !in c.controls then None else Some(c.controls[elName])
  }

  /** Whether an interaction on a live control is reported: a handler for it
      is attached to the control's type, and the handler's own filter passes
      (a small scroll step, the Enter key). */
  predicate Reported(s: State, key: string, elName: string, i: Interaction)
  {
    && LiveControl(s, key, elName).Some?
    && HandlerFor(i).Some?
    && Attached(LiveControl(s, key, elName).value.kind, HandlerFor(i).value)
    && (i.Scroll? ==> IsSmallStep(i.scrollType))
    && (i.KeyDown? ==> i.keyCode == EnterKey)
  }

  /** The user acts on control `elName` of the form filed under `key`; the
      attached handler, if any, translates the interaction into at most one
      logged event. Controls that are not registered have no handlers, and
      a disposed form receives no input. */
  function Interact(s: State, key: string, elName: string, i: Interaction): (r: State)
    ensures GrowsByAtMostOne(s.log, r.log)
    ensures |r.log| == |s.log| + 1 <==> Reported(s, key, elName, i)
    ensures Reported(s, key, elName, i) ==>
              var w := LiveControl(s, key, elName).value;
              r.log == match i
                case Scroll(t, oldValue, newValue) => OnScroll(s.log, w, t, oldValue, newValue)
                case Click => OnClick(s.log, w)
                case LostFocus => OnLostFocus(s.log, w)
                case KeyDown(keyCode) => OnKeyDown(s.log, w, keyCode)
                case Edit(_) => s.log
    ensures !i.Edit? ==> r.directory == s.directory
    ensures i.Edit? ==> r.log == s.log
    ensures i.Edit? && !(LiveControl(s, key, elName).Some? && LiveControl(s, key, elName).value.kind == TextBox) ==> r == s
    ensures i.Edit? && LiveControl(s, key, elName).Some? && LiveControl(s, key, elName).value.kind == TextBox ==>
              var c := Find(s.directory, key).value;
              Find(r.directory, key) == Some(c.(controls := c.controls[elName := c.controls[elName].(text := i.text)]))
    ensures KeysUnique(s.directory) ==> forall k :: k != key ==> Find(r.directory, k) == Find(s.directory, k)
    ensures Keys(r.directory) == Keys(s.directory)
    ensures |r.directory| == |s.directory|
    ensures forall i :: 0 <= i < |s.directory| ==> r.directory[i].key == s.directory[i].key
    ensures forall i :: 0 <= i < |s.directory| && s.directory[i].key != key ==> r.directory[i] == s.directory[i]
  {
    match LiveControl(s, key, elName)
    case None => s
    case Some(w) =>
      match i
      case Edit(text) =>
        if w.kind == TextBox then
          var c := Find(s.directory, key).value;
          var c' := c.(controls := c.controls[elName := w.(text := text)]);
          ReplaceKeepsKeys(s.directory, key, c');
          FindAfterReplace(s.directory, key, c', key);
          assert forall k :: k != key ==> Find(Replace(s.directory, key, c'), k) == Find(s.directory, k) by {
            forall k | k != key ensures Find(Replace(s.directory, key, c'), k) == Find(s.directory, k) {
              FindAfterReplace(s.directory, key, c', k);
            }
          }
          State(s.log, Replace(s.directory, key, c'))
        else s
      case Scroll(t, oldValue, newValue) =>
        if Attached(w.kind, ScrollHandler) then State(OnScroll(s.log, w, t, oldValue, newValue), s.directory) else s
      case Click =>
        if Attached(w.kind, ClickHandler) then State(OnClick(s.log, w), s.directory) else s
      case LostFocus =>
        if Attached(w.kind, LostFocusHandler) then State(OnLostFocus(s.log, w), s.directory) else s
      case KeyDown(keyCode) =>
        if Attached(w.kind, KeyDownHandler) then State(OnKeyDown(s.log, w, keyCode), s.directory) else s
  }

  /** A registered label reports nothing, whatever the user does to it. */
  lemma LabelsAreSilent(s: State, key: string, elName: string, i: Interaction)
    requires LiveControl(s, key, elName).Some? && LiveControl(s, key, elName).value.kind == Label
    ensures Interact(s, key, elName, i).log == s.log
  {
  }

  /** In a valid state the reported event names the control the user acted on. */
  lemma ReportedEventNamesControl(s: State, key: string, elName: string, i: Interaction)
    requires Valid(s) && Reported(s, key, elName, i)
    ensures Interact(s, key, elName, i).log[|s.log|].elName == elName
  {
  }

  /** The windowing system closing a form: its controller becomes disposed
      and stays in the directory until a later `SendEvent` meets it. */
  function CloseWindow(s: State, key: string): (r: State)
    ensures r.log == s.log
    ensures Keys(r.directory) == Keys(s.directory)
    ensures key in Keys(s.directory) ==> Find(r.directory, key) == Some(Find(s.directory, key).value.(disposed := true))
    ensures key !in Keys(s.directory) ==> r == s
    ensures forall k :: k != key ==> Find(r.directory, k) == Find(s.directory, k)
    ensures |r.directory| == |s.directory|
    ensures forall i :: 0 <= i < |s.directory| ==> r.directory[i].key == s.directory[i].key
    ensures forall i :: 0 <= i < |s.directory| && s.directory[i].key != key ==> r.directory[i] == s.directory[i]
  {
    match Find(s.directory, key)
    case None => s
    case Some(c) =>
      var c' := c.(disposed := true);
      ReplaceKeepsKeys(s.directory, key, c');
      FindAfterReplace(s.directory, key, c', key);
      assert forall k :: k != key ==> Find(Replace(s.directory, key, c'), k) == Find(s.directory, k) by {
        forall k | k != key ensures Find(Replace(s.directory, key, c'), k) == Find(s.directory, k) {
          FindAfterReplace(s.directory, key, c', k);
        }
      }
      State(s.log, Replace(s.directory, key, c'))
  }

  /** A call into the bridge from the host, or an action of the user or of
      the windowing system. The host's queries `EventsTotal` and `GetEvent`
      read the log without changing the state and are not calls here. */
  datatype Call =
    | Show(assemblyPath: string, formName: string)
    | Hide(assemblyPath: string, formName: string)
    | Send(elName: string, id: int, lparam: int, dparam: int, sparam: string)
    | User(key: string, control: string, interaction: Interaction)
    | Close(key: string)

  function Step(s: State, resolve: Resolver, call: Call): (r: State)
  {
    match call
    case Show(path, name) => ShowForm(s, resolve, path, name)
    case Hide(path, name) => HideForm(s, path, name)
    case Send(name, id, lparam, dparam, sparam) => SendEvent(s, name, id, lparam, dparam, sparam)
    case User(key, name, i) => Interact(s, key, name, i)
    case Close(key) => CloseWindow(s, key)
  }

  /** Every call keeps the log's existing events and adds at most one. An
      exception event can only come from `ShowForm`, and a user interaction
      only ever logs a translated event. */
  lemma StepGrowsLog(s: State, resolve: Resolver, call: Call)
    ensures GrowsByAtMostOne(s.log, Step(s, resolve, call).log)
    ensures |Step(s, resolve, call).log| == |s.log| + 1 ==>
              (Step(s, resolve, call).log[|s.log|].id == Exception <==> call.Show?)
    ensures call.Hide? || call.Send? || call.Close? ==> Step(s, resolve, call).log == s.log
  {
  }

  /** `ShowForm` keeps the state valid: the new registry is well named and
      its key was absent. */
  lemma ShowKeepsValid(s: State, resolve: Resolver, assemblyPath: string, formName: string)
    requires Valid(s)
    ensures Valid(ShowForm(s, resolve, assemblyPath, formName))
  {
  }

  /** `HideForm` keeps the state valid. */
  lemma HideKeepsValid(s: State, assemblyPath: string, formName: string)
    requires Valid(s)
    ensures Valid(HideForm(s, assemblyPath, formName))
  {
  }

  /** A user interaction keeps the state valid: typing changes only a text. */
  lemma InteractKeepsValid(s: State, key: string, elName: string, i: Interaction)
    requires Valid(s)
    ensures Valid(Interact(s, key, elName, i))
  {
  }

  /** Closing a window keeps the state valid. */
  lemma CloseKeepsValid(s: State, key: string)
    requires Valid(s)
    ensures Valid(CloseWindow(s, key))
  {
  }

  /** Every call keeps the state valid. */
  lemma StepKeepsValid(s: State, resolve: Resolver, call: Call)
    requires Valid(s)
    ensures Valid(Step(s, resolve, call))
  {
    match call
    case Show(path, name) => ShowKeepsValid(s, resolve, path, name);
    case Hide(path, name) => HideKeepsValid(s, path, name);
    case Send(name, id, lparam, dparam, sparam) => DispatchKeepsValid(s, name, id, lparam, dparam, sparam);
    case User(key, name, i) => InteractKeepsValid(s, key, name, i);
    case Close(key) => CloseKeepsValid(s, key);
  }

  /** Replacing one controller by a well-named one keeps every registry well named. */
  lemma ReplaceAllWellNamed(d: Directory, key: string, c: Controller)
    requires forall e :: e in d ==> WellNamed(e.controller.controls)
    requires WellNamed(c.controls)
    ensures forall e :: e in Replace(d, key, c) ==> WellNamed(e.controller.controls)
  {
  }

  /** The calls applied in order. */
  function Run(s: State, resolve: Resolver, calls: seq<Call>): (r: State)
    decreases |calls|
  {
    if |calls| == 0 then s else Run(Step(s, resolve, calls[0]), resolve, calls[1..])
  }

  /** Over any run the log only grows: every event keeps its index and
      contents, and each call adds at most one event. */
  lemma {:induction false} RunGrowsLog(s: State, resolve: Resolver, calls: seq<Call>)
    ensures |s.log| <= |Run(s, resolve, calls).log| <= |s.log| + |calls|
    ensures Run(s, resolve, calls).log[..|s.log|] == s.log
    decreases |calls|
  {
    if |calls| > 0 {
      var s' := Step(s, resolve, calls[0]);
      StepGrowsLog(s, resolve, calls[0]);
      RunGrowsLog(s', resolve, calls[1..]);
      assert Run(s, resolve, calls).log[..|s'.log|][..|s.log|] == s'.log[..|s.log|];
    }
  }

  /** Every state reachable from the initial one is valid. */
  lemma {:induction false} RunKeepsValid(s: State, resolve: Resolver, calls: seq<Call>)
    requires Valid(s)
    ensures Valid(Run(s, resolve, calls))
    decreases |calls|
  {
    if |calls| > 0 {
      StepKeepsValid(s, resolve, calls[0]);
      RunKeepsValid(Step(s, resolve, calls[0]), resolve, calls[1..]);
    }
  }

  /** Opening a form with a button and clicking it leaves exactly one event,
      a click naming the button. */
  lemma OpenThenClick(path: string, form: string, resolve: Resolver)
    requires resolve(path, form) == Some([Widget("Btn1", Button, "OK", [])])
    ensures var s := Interact(ShowForm(Initial, resolve, path, form), FormKey(path, form), "Btn1", Click);
      && EventsTotal(s.log) == 1
      && GetEvent(s.log, 0) == EventFields("Btn1", Code(ClickOnElement), 0, 0, "")
  {
  }

  /** After a successful `ShowForm` every registered-type top-level control
      of the form is live under the form's key, as the very control the form
      holds: its kind and text are those of the form. */
  lemma {:induction false} ShownControlsAreLive(s: State, resolve: Resolver, assemblyPath: string, formName: string)
    requires CanShow(s, resolve, assemblyPath, formName)
    ensures var form := resolve(assemblyPath, formName).value;
      forall i :: 0 <= i < |form| && Supported(form[i].kind) ==>
        LiveControl(ShowForm(s, resolve, assemblyPath, formName), FormKey(assemblyPath, formName), form[i].name) == Some(form[i])
  {
    var key := FormKey(assemblyPath, formName);
    var c := GetGuiController(resolve, assemblyPath, formName).value;
    FindAfterAdd(s.directory, key, c, key);
  }

  /** A text command followed by the user leaving the text box: the command
      itself logs nothing and does not loop back through the translator, and
      the lost focus then reports exactly the text the command set. The text
      box sits in the live controller at position `j`, which the walk of
      `SendEvent` reaches before any disposed controller. */
  lemma {:induction false} CommandThenLostFocus(s: State, j: nat, n: string, lparam: int, dparam: int, t: string)
    requires Valid(s)
    requires j < FirstDisposed(s.directory)
    requires n in s.directory[j].controller.controls
    requires s.directory[j].controller.controls[n].kind == TextBox
    ensures SendEvent(s, n, Code(TextChange), lparam, dparam, t).log == s.log
    ensures Interact(SendEvent(s, n, Code(TextChange), lparam, dparam, t), s.directory[j].key, n, LostFocus).log
              == s.log + [GuiEvent(n, TextChange, 0, 0, t)]
  {
    var s1 := SendEvent(s, n, Code(TextChange), lparam, dparam, t);
    var key := s.directory[j].key;
    var c := s.directory[j].controller;
    DispatchKeepsValid(s, n, Code(TextChange), lparam, dparam, t);
    var c1 := Visit(c, n, Code(TextChange), t);
    assert s1.directory[j] == Entry(key, c1);
    assert s.directory[j] in s.directory;
    assert Find(s1.directory, key) == Some(c1);
    assert c1.controls[n] == c.controls[n].(text := t);
    assert LiveControl(s1, key, n) == Some(c.controls[n].(text := t));
  }
}

=== FILE: controls.dfy ===
/** The per-form half of the bridge (MtGuiController/Controller.cs): which
    widgets a controller registers, which handlers it attaches to them, and
    how each handled interaction becomes at most one logged event. */
module Controls {
  import opened Wrappers
  import opened GuiEvents

  /** The exact runtime type of a control. `OtherType` stands for every other
      class, including subclasses of the four named ones: the source compares
      `GetType()` for equality, not assignability. */
  datatype WidgetKind = VScrollBar | Button | Label | TextBox | OtherType(typeName: string)

  /** A control of a form. `children` are the controls nested inside it (a
      panel's contents, say); the controller never looks at them. */
  datatype Widget = Widget(name: string, kind: WidgetKind, text: string, children: seq<Widget>)

  /** A controller's `m_controls`: the registered controls keyed by name. */
  type Registry = map<string, Widget>

  /** Every control in the registry is filed under its own name. */
  predicate WellNamed(reg: Registry)
  {
    forall n :: n in reg ==> reg[n].name == n
  }

  /** The event subscriptions the controller can attach. */
  datatype Handler = ScrollHandler | ClickHandler | LostFocusHandler | KeyDownHandler

  /** The `types_and_events` table: the handlers attached to a control of each
      registered type, or None for a type the table does not contain. */
  function HandlersOf(k: WidgetKind): (hs: Option<set<Handler>>)
    ensures hs.None? <==> k.OtherType?
    ensures hs.Some? ==>
              && (ScrollHandler in hs.value <==> k == VScrollBar)
              && (ClickHandler in hs.value <==> k == Button)
              && (LostFocusHandler in hs.value <==> k == TextBox)
              && (KeyDownHandler in hs.value <==> k == TextBox)
  {
    match k
    case VScrollBar => Some({ScrollHandler})
    case Button => Some({ClickHandler})
    case Label => Some({})
    case TextBox => Some({LostFocusHandler, KeyDownHandler})
    case OtherType(_) => None
  }

  /** A control type the table contains, so that its controls are registered. */
  predicate Supported(k: WidgetKind)
  {
    HandlersOf(k).Some?
  }

  /** Exactly the four named types are registered. */
  lemma SupportedKinds(k: WidgetKind)
    ensures Supported(k) <==> k in {VScrollBar, Button, Label, TextBox}
  {
  }

  /** A label is registered, yet no handler is attached to it. */
  lemma LabelHasNoHandlers()
    ensures Supported(Label) && HandlersOf(Label) == Some({})
  {
  }

  /** Whether handler `h` is attached to a control of kind `k`. */
  predicate Attached(k: WidgetKind, h: Handler)
  {
    HandlersOf(k).Some? && h in HandlersOf(k).value
  }

  /** The names of the top-level controls whose type is registered. */
  function SupportedNames(controls: seq<Widget>): (names: set<string>)
  {
    set i | 0 <= i < |controls| && Supported(controls[i].kind) :: controls[i].name
  }

  /** No two top-level controls of registered types share a name. */
  predicate UniqueSupportedNames(controls: seq<Widget>)
  {
    forall i, j :: 0 <= i < j < |controls| && Supported(controls[i].kind) && Supported(controls[j].kind)
      ==> controls[i].name != controls[j].name
  }

  /** Adding one control at the end of the walk: the names stay unique
      exactly when the prefix's do and the new control, if registered,
      brings a fresh name. */
  lemma UniqueSnoc(controls: seq<Widget>)
    requires |controls| > 0
    ensures var front, c := controls[..|controls| - 1], controls[|controls| - 1];
      UniqueSupportedNames(controls) <==>
        UniqueSupportedNames(front) && (Supported(c.kind) ==> c.name !in SupportedNames(front))
  {
  }

  /** The registered names after one more control. */
  lemma SupportedNamesSnoc(controls: seq<Widget>)
    requires |controls| > 0
    ensures var front, c := controls[..|controls| - 1], controls[|controls| - 1];
      SupportedNames(controls) == SupportedNames(front) + (if Supported(c.kind) then {c.name} else {})
  {
  }

  /** `SubscribeOnElements`: walk the form's top-level controls in order and
      add every control of a registered type under its name. A second control
      with a name already present makes `Dictionary.Add` throw, which fails
      the controller's construction; the failure carries that name. */
  function SubscribeOnElements(controls: seq<Widget>): (r: Result<Registry, string>)
    ensures r.Success? <==> UniqueSupportedNames(controls)
    ensures r.Success? ==> r.value.Keys == SupportedNames(controls)
    ensures r.Success? ==> forall i :: 0 <= i < |controls| && Supported(controls[i].kind)
                             ==> r.value[controls[i].name] == controls[i]
    ensures r.Success? ==> WellNamed(r.value)
    ensures r.Failure? ==> r.error in SupportedNames(controls)
    decreases |controls|
  {
    if |controls| == 0 then Success(map[])
    else
      var front := controls[..|controls| - 1];
      var c := controls[|controls| - 1];
      var prefix := SubscribeOnElements(front);
      UniqueSnoc(controls);
      SupportedNamesSnoc(controls);
      if prefix.Failure? then prefix
      else if !Supported(c.kind) then
        assert forall i :: 0 <= i < |front| ==> front[i] == controls[i];
        prefix
      else if c.name in prefix.value then Failure(c.name)
      else
        assert forall i :: 0 <= i < |front| ==> front[i] == controls[i];
        Success(prefix.value[c.name := c])
  }

  /** Whether a form builds a registry at all does not depend on controls
      nested inside others: only the top level is walked. */
  lemma SubscribeIgnoresNesting(controls: seq<Widget>, flat: seq<Widget>)
    requires |flat| == |controls|
    requires forall i :: 0 <= i < |controls| ==> flat[i] == controls[i].(children := [])
    ensures SubscribeOnElements(flat).Success? <==> SubscribeOnElements(controls).Success?
    ensures SubscribeOnElements(flat).Success? ==>
              SubscribeOnElements(flat).value.Keys == SubscribeOnElements(controls).value.Keys
  {
  }

  /** `DisposeForm`: the registry is cleared. Disposing the form itself runs
      on another task and has no effect on the model's state. When the bridge
      hides a form it removes the controller right after this, so the
      cleared registry is not observable in the bridge's state. */
  function DisposeForm(controls: Registry): (r: Registry)
    ensures r == map[]
  {
    map[]
  }

  /** Scroll notification subtypes (`ScrollEventType`). */
  datatype ScrollEventType =
    | SmallDecrement | SmallIncrement | LargeDecrement | LargeIncrement
    | ThumbPosition | ThumbTrack | First | Last | EndScroll

  /** Only a one-step move of the scroll bar is reported. */
  predicate IsSmallStep(t: ScrollEventType)
  {
    t == SmallIncrement || t == SmallDecrement
  }

  /** `OnScroll`: a small step logs one `ScrollChange` event with the old
      position in `lparam` and the new one in `dparam`; any other subtype
      leaves the log as it is. */
  function OnScroll(log: Log, control: Widget, t: ScrollEventType, oldValue: int, newValue: int): (r: Log)
    ensures |r| == |log| + 1 <==> IsSmallStep(t)
    ensures !IsSmallStep(t) ==> r == log
    ensures IsSmallStep(t) ==>
              r[..|log|] == log && r[|log|] == GuiEvent(control.name, ScrollChange, oldValue, newValue, "")
  {
    if !IsSmallStep(t) then log
    else Append(log, GuiEvent(control.name, ScrollChange, oldValue, newValue, ""))
  }

  /** `OnClick`: one `ClickOnElement` event that carries only the control's name. */
  function OnClick(log: Log, control: Widget): (r: Log)
    ensures |r| == |log| + 1 && r[..|log|] == log
    ensures r[|log|] == GuiEvent(control.name, ClickOnElement, 0, 0, "")
  {
    Append(log, GuiEvent(control.name, ClickOnElement, 0, 0, ""))
  }

  /** `OnTextChange`: one `TextChange` event carrying the control's current text. */
  function OnTextChange(log: Log, control: Widget): (r: Log)
    ensures |r| == |log| + 1 && r[..|log|] == log
    ensures r[|log|] == GuiEvent(control.name, TextChange, 0, 0, control.text)
  {
    Append(log, GuiEvent(control.name, TextChange, 0, 0, control.text))
  }

  /** `OnLostFocus`: losing focus always reports the text. */
  function OnLostFocus(log: Log, control: Widget): (r: Log)
    ensures r == OnTextChange(log, control)
  {
    OnTextChange(log, control)
  }

  /** `Keys.Enter`. */
  const EnterKey: int := 13

  /** `OnKeyDown`: the Enter key reports the text exactly as losing focus
      does; every other key logs nothing. */
  function OnKeyDown(log: Log, control: Widget, keyCode: int): (r: Log)
    ensures keyCode == EnterKey ==> r == OnLostFocus(log, control)
    ensures keyCode != EnterKey ==> r == log
  {
    if keyCode == EnterKey then OnTextChange(log, control) else log
  }
}

=== FILE: directory.dfy ===
/** The controller directory of the bridge (`m_controllers` in
    MtGuiController/IController.cs): one controller per open form, under the
    key `assembly_path + "/" + form_name`. C# leaves a dictionary's
    enumeration order unspecified; the model fixes it to insertion order, a
    sequence of entries with distinct keys, so that a walk that stops part-way
    can be stated. */
module ControllerDirectory {
  import opened Wrappers
  import opened Controls

  /** The state of one `GuiController` the bridge can see: its registry, and
      whether its form has been disposed (`IsDiposed`, set by the windowing
      system). */
  datatype Controller = Controller(controls: Registry, disposed: bool)

  datatype Entry = Entry(key: string, controller: Controller)

  type Directory = seq<Entry>

  /** The key a form is filed under. */
  function FormKey(assemblyPath: string, formName: string): (k: string)
    ensures |k| == |assemblyPath| + 1 + |formName|
    ensures k[..|assemblyPath|] == assemblyPath && k[|assemblyPath|] == '/'
    ensures k[|assemblyPath| + 1..] == formName
  {
    assemblyPath + "/" + formName
  }

  /** The key is not injective: a '/' may sit in the path or in the form
      name, so two different forms can be filed under the same key. */
  lemma FormKeyCollides()
    ensures FormKey("a/b", "c") == FormKey("a", "b/c")
  {
  }

  /** The dictionary invariant: no key occurs twice. */
  predicate KeysUnique(d: Directory)
  {
    forall i, j :: 0 <= i < j < |d| ==> d[i].key != d[j].key
  }

  function Keys(d: Directory): (ks: set<string>)
  {
    set e | e in d :: e.key
  }

  /** Dictionary lookup: the controller filed under `key`, if any. */
  function Find(d: Directory, key: string): (r: Option<Controller>)
    ensures r.Some? <==> key in Keys(d)
    ensures r.Some? ==> exists i :: 0 <= i < |d| && d[i] == Entry(key, r.value)
    ensures forall i :: 0 <= i < |d| && d[i].key == key && KeysUnique(d) ==> r == Some(d[i].controller)
  {
    if |d| == 0 then None
    else if d[0].key == key then Some(d[0].controller)
    else
      Find(d[1..], key)
  }

  /** `Dictionary.Remove`: the entry under `key` disappears and every other
      entry stays; `RemoveKeepsOrder` states that their order is kept too. */
  function Remove(d: Directory, key: string): (r: Directory)
    ensures Keys(r) == Keys(d) - {key}
    ensures |r| <= |d|
    ensures KeysUnique(d) ==> KeysUnique(r)
    ensures forall e :: e in r ==> e in d
  {
    if |d| == 0 then []
    else
      var rest := Remove(d[1..], key);
      assert Keys(d) == {d[0].key} + Keys(d[1..]) by {
        assert d == [d[0]] + d[1..];
      }
      if d[0].key == key then rest
      else
        var r := [d[0]] + rest;
        assert Keys(r) == {d[0].key} + Keys(rest) by {
          assert forall i :: 0 < i < |r| ==> r[i] == rest[i - 1];
        }
        assert forall i :: 0 < i < |r| ==> r[i] == rest[i - 1];
        r
  }

  /** Removing a present key cuts exactly its entry out of the sequence: the
      entries before it and after it stay, in order. */
  lemma {:induction false} RemoveKeepsOrder(d: Directory, key: string, i: nat)
    requires KeysUnique(d) && i < |d| && d[i].key == key
    ensures Remove(d, key) == d[..i] + d[i + 1..]
  {
    var tail := d[1..];
    assert KeysUnique(tail) by {
      forall a, b | 0 <= a < b < |tail| ensures tail[a].key != tail[b].key {
        assert tail[a] == d[a + 1] && tail[b] == d[b + 1];
      }
    }
    if i == 0 {
      assert key !in Keys(tail) by {
        forall e | e in tail ensures e.key != key {
          var j :| 0 <= j < |tail| && tail[j] == e;
          assert d[j + 1] == e;
        }
      }
      RemoveLength(tail, key);
    } else {
      RemoveKeepsOrder(tail, key, i - 1);
      assert d[..i] == [d[0]] + tail[..i - 1];
      assert d[i + 1..] == tail[i..];
    }
  }

  /** Replacing the controller under a key and then removing that key
      leaves the other entries exactly as they were, in order. */
  lemma ReplaceThenRemove(d: Directory, key: string, c: Controller, i: nat)
    requires KeysUnique(d) && i < |d| && d[i].key == key
    ensures Remove(Replace(d, key, c), key) == d[..i] + d[i + 1..]
  {
    var r := Replace(d, key, c);
    ReplaceKeepsKeys(d, key, c);
    RemoveKeepsOrder(r, key, i);
    assert r[..i] == d[..i];
    assert r[i + 1..] == d[i + 1..];
  }

  /** Lookups after a removal: the removed key is gone and every other key
      finds what it found before. */
  lemma FindAfterRemove(d: Directory, key: string, k: string)
    requires KeysUnique(d)
    ensures Find(Remove(d, key), k) == if k == key then None else Find(d, k)
  {
  }

  /** Removing a present key removes exactly one entry. */
  lemma {:induction false} RemoveLength(d: Directory, key: string)
    requires KeysUnique(d)
    ensures key in Keys(d) ==> |Remove(d, key)| == |d| - 1
    ensures key !in Keys(d) ==> Remove(d, key) == d
  {
    if |d| > 0 {
      assert KeysUnique(d[1..]);
      RemoveLength(d[1..], key);
      assert Keys(d) == {d[0].key} + Keys(d[1..]) by {
        assert forall i :: 0 < i < |d| ==> d[i] == d[1..][i - 1];
      }
      if d[0].key == key {
        assert key !in Keys(d[1..]);
      } else {
        assert [d[0]] + d[1..] == d;
      }
    }
  }

  /** `Dictionary.Add` of a fresh key: the new entry comes last. */
  function Add(d: Directory, key: string, c: Controller): (r: Directory)
    requires key !in Keys(d)
    ensures Keys(r) == Keys(d) + {key}
    ensures KeysUnique(d) ==> KeysUnique(r)
    ensures |r| == |d| + 1 && r[..|d|] == d
  {
    d + [Entry(key, c)]
  }

  /** Lookups after an add: the new key finds the new controller and every
      other key finds what it found before. */
  lemma {:induction false} FindAfterAdd(d: Directory, key: string, c: Controller, k: string)
    requires key !in Keys(d)
    ensures Find(Add(d, key, c), k) == if k == key then Some(c) else Find(d, k)
  {
    if |d| > 0 {
      assert Keys(d) == {d[0].key} + Keys(d[1..]) by {
        assert forall i :: 0 < i < |d| ==> d[i] == d[1..][i - 1];
      }
      FindAfterAdd(d[1..], key, c, k);
      assert Add(d, key, c)[1..] == Add(d[1..], key, c);
    }
  }

  /** Replace the controller filed under `key`, leaving every key and the
      order of entries alone. */
  function Replace(d: Directory, key: string, c: Controller): (r: Directory)
    ensures |r| == |d|
    ensures forall i :: 0 <= i < |d| ==> r[i].key == d[i].key
    ensures forall i :: 0 <= i < |d| && d[i].key != key ==> r[i] == d[i]
    ensures forall e :: e in r ==> e in d || e.controller == c
  {
    if |d| == 0 then []
    else if d[0].key == key then [Entry(key, c)] + d[1..]
    else [d[0]] + Replace(d[1..], key, c)
  }

  /** Lookups after a replacement: a present key finds the new controller and
      every other key finds what it found before. */
  lemma {:induction false} FindAfterReplace(d: Directory, key: string, c: Controller, k: string)
    requires key in Keys(d)
    ensures Find(Replace(d, key, c), k) == if k == key then Some(c) else Find(d, k)
  {
    assert Keys(d) == {d[0].key} + Keys(d[1..]) by {
      assert forall i :: 0 < i < |d| ==> d[i] == d[1..][i - 1];
    }
    if d[0].key != key {
      FindAfterReplace(d[1..], key, c, k);
    }
  }

  /** A replacement keeps the dictionary invariant. */
  lemma ReplaceKeepsKeys(d: Directory, key: string, c: Controller)
    ensures Keys(Replace(d, key, c)) == Keys(d)
    ensures KeysUnique(d) ==> KeysUnique(Replace(d, key, c))
  {
  }
}

=== FILE: gui_events.dfy ===
/** The global event schema and log of the bridge (MtGuiController/IController.cs).
    The log is append-only: the operations here either read it or extend it
    by exactly one event. */
module GuiEvents {
  import opened Wrappers

  /** Kind of a logged event. The host sees it as the enum's ordinal. */
  datatype GuiEventType = Exception | ClickOnElement | TextChange | ScrollChange

  /** The ordinal the host receives for an event type (the C# `(int)` cast). */
  function Code(t: GuiEventType): (c: int)
    ensures 0 <= c < 4
  {
    match t
    case Exception => 0
    case ClickOnElement => 1
    case TextChange => 2
    case ScrollChange => 3
  }

  /** The ordinals follow the order in which the members are declared, as
      for every C# enum without explicit values; with the range of `Code`
      this fixes Exception = 0, ClickOnElement = 1, TextChange = 2 and
      ScrollChange = 3. */
  lemma CodeFollowsDeclarationOrder()
    ensures Code(Exception) < Code(ClickOnElement) < Code(TextChange) < Code(ScrollChange)
  {
  }

  /** The named enum member an integer casts to, if any. A C# enum cast never
      fails: an integer outside the declared ordinals yields an unnamed value,
      modelled here as None. */
  function TypeOfCode(c: int): (t: Option<GuiEventType>)
    ensures t.Some? <==> 0 <= c < 4
    ensures t.Some? ==> Code(t.value) == c
  {
    if c == 0 then Some(Exception)
    else if c == 1 then Some(ClickOnElement)
    else if c == 2 then Some(TextChange)
    else if c == 3 then Some(ScrollChange)
    else None
  }

  /** Casting an ordinal back gives the type it came from. */
  lemma CodeRoundTrip(t: GuiEventType)
    ensures TypeOfCode(Code(t)) == Some(t)
  {
  }

  /** One logged event. `assembly_name` and `form_name` are never assigned by
      the bridge and are left out; a C# null string is the empty string here.
      `dparam` only ever receives an integer (a scroll position), so it is an
      `int`. */
  datatype GuiEvent = GuiEvent(elName: string, id: GuiEventType, lparam: int, dparam: int, sparam: string)

  /** The global, append-only event list shared by every controller. */
  type Log = seq<GuiEvent>

  /** `List<GuiEvent>.Add`: every event already in the log keeps its index
      and contents, and the new event gets the next index. */
  function Append(log: Log, e: GuiEvent): (r: Log)
    ensures |r| == |log| + 1
    ensures r[..|log|] == log
    ensures r[|log|] == e
  {
    log + [e]
  }

  /** The fields the host reads back for one event, with the type as its ordinal. */
  datatype EventFields = EventFields(elName: string, id: int, lparam: int, dparam: int, sparam: string)

  /** `EventsTotal`: the number of events logged so far, which is also the
      bound of the indices `GetEvent` accepts. */
  function EventsTotal(log: Log): (n: nat)
    ensures n == |log|
  {
    |log|
  }

  /** `GetEvent`: the fields of the event at index `n`. The source indexes the
      list without a guard, so an index outside the log faults; it is a
      precondition here. */
  function GetEvent(log: Log, n: int): (f: EventFields)
    requires 0 <= n < EventsTotal(log)
    ensures TypeOfCode(f.id) == Some(log[n].id)
    ensures f.elName == log[n].elName && f.sparam == log[n].sparam
    ensures f.lparam == log[n].lparam && f.dparam == log[n].dparam
  {
    var e := log[n];
    EventFields(e.elName, Code(e.id), e.lparam, e.dparam, e.sparam)
  }

  /** After an append the new event is the last one the host can read, at
      index `EventsTotal - 1`, and the total has grown by one. */
  lemma AppendedEventIsLast(log: Log, e: GuiEvent)
    ensures EventsTotal(Append(log, e)) == EventsTotal(log) + 1
    ensures GetEvent(Append(log, e), EventsTotal(log)) == EventFields(e.elName, Code(e.id), e.lparam, e.dparam, e.sparam)
  {
  }

  /** An index the host has already read stays valid and keeps its fields
      when later events are appended. */
  lemma GetEventStable(log: Log, e: GuiEvent, n: int)
    requires 0 <= n < EventsTotal(log)
    ensures 0 <= n < EventsTotal(Append(log, e))
    ensures GetEvent(Append(log, e), n) == GetEvent(log, n)
  {
  }

  /** The event `SendExceptionEvent` builds: only the type and the message are set. */
  function ExceptionEvent(message: string): (e: GuiEvent)
  {
    GuiEvent("", Exception, 0, 0, message)
  }

  /** `SendExceptionEvent`: a failure becomes one `Exception` event carrying
      the error message, appended after everything already logged. */
  function SendExceptionEvent(log: Log, message: string): (r: Log)
    ensures |r| == |log| + 1
    ensures r[..|log|] == log
    ensures r[|log|].id == Exception && r[|log|].sparam == message
    ensures r[|log|].elName == "" && r[|log|].lparam == 0 && r[|log|].dparam == 0
  {
    Append(log, ExceptionEvent(message))
  }

  /** The log relation every bridge operation keeps: the old log is a prefix
      of the new one, and at most one event was added. */
  predicate GrowsByAtMostOne(before: Log, after: Log)
  {
    && |before| <= |after| <= |before| + 1
    && after[..|before|] == before
  }
}

=== FILE: wrappers.dfy ===
/** Optional values and value-or-error results used throughout the model. */
module Wrappers {

  /** A value that may be absent: a lookup that misses, or a form that
      cannot be resolved. */
  datatype Option<+T> = None | Some(value: T)

  /** The outcome of a step that can fail: the value it produced, or the
      error that a .NET exception would have carried out of it. */
  datatype Result<+R, +E> = Success(value: R) | Failure(error: E)
}
